=== FILE: README.md ===
# Landing-page interaction controller, modelled in Dafny

The page script (`script.js`) wires a marketing landing page: a header that
turns `scrolled` past 10 px, a floating call-to-action that turns `visible`
past 400 px, a mobile navigation toggle, smooth in-page scrolling,
active-section highlighting, expandable case-study cards, capture of the four
UTM campaign tags into browser storage, and a contact form whose submission is
validated locally.

This project lifts each handler's decision logic into a pure function over
immutable values. DOM elements are records, class lists are sets, attributes
are optional strings, storage and the decoded query string are maps. The
model proves the properties each handler promises.

| file | module | models |
|---|---|---|
| `dom.dfy` | `Dom` | optional elements, class lists, `String(bool)` attributes, form inputs |
| `scroll.dfy` | `Scroll` | `applyStickyHeader`, `toggleStickyCta`, the scroll-button click decision |
| `nav.dfy` | `Nav` | nav-toggle click, nav-link click |
| `active_section.dfy` | `ActiveSection` | the viewport watcher's callback body |
| `case_card.dfy` | `CaseCard` | case-card toggle |
| `utm.dfy` | `Utm` | `populateUtmFields` |
| `email.dfy` | `Email` | `validateEmail`, `String.prototype.trim` |
| `contact_form.dfy` | `ContactForm` | `showMessage`, the submit handler |
| `page.dfy` | `Page` | start-up and per-event dispatch over the whole page state |

The e-mail check is executable (`Email.ValidateEmail` scans for the first
`@`). It is proved equal to `Email.RegexMatch`, which reads the pattern
`^[^\s@]+@[^\s@]+\.[^\s@]+$` as a split into three `[^\s@]+` runs. It is also
proved equal to the plain-words rule: no whitespace, exactly one `@`, a
non-empty local part, and a `.` inside the domain that is neither its first
nor its last character. Whitespace is the ECMAScript WhiteSpace and
LineTerminator set. Both `\s` and `trim` use that set.

## Model

| member | source | states |
|---|---|---|
| `Dom.BoolTextRoundTrip` | script.js:29-30 | writing `String(b)` and reading the attribute back with `=== 'true'` gives `b`, and the attribute is then one of the two normal texts |
| `Scroll.ApplyStickyHeader` | script.js:16-22 | the header has `scrolled` iff the offset exceeds 10; no other class changes |
| `Scroll.ToggleStickyCta` | script.js:156-163 | a missing call-to-action stays missing; otherwise it has `visible` iff the offset exceeds 400, and no other class changes |
| `Scroll.StickyStateForgetsHistory` | script.js:16-163 | header and call-to-action state after a scroll depend only on the latest offset, never on earlier scrolls |
| `Scroll.StickyStateMonotone` | script.js:16-163 | scrolling further down never removes `scrolled` or `visible` |
| `Scroll.ScrollTarget` | script.js:55-63 | the click is taken over iff the target starts with `#`; a non-empty `data-scroll` wins over `href`, and an empty or absent one falls back to `href` |
| `Nav.ToggleClick` | script.js:27-33 | `aria-expanded` becomes the negation of its reading as `'true'` and is normal afterwards; `open` flips on an existing list; other classes are kept |
| `Nav.LinkClick` | script.js:35-40 | whatever the prior state, an existing list loses `open` and an existing toggle reads `"false"`; missing elements stay missing |
| `Nav.ToggleTwiceRestores` | script.js:28-31 | from a normal `aria-expanded`, two toggle clicks restore the nav state exactly |
| `Nav.ToggleTwiceRestoresReading` | script.js:29-31 | from any attribute value, two toggle clicks restore the list and the attribute's reading, and leave the attribute normal |
| `Nav.LinkClickIsReset` | script.js:36-39 | a link click is idempotent and erases the effect of a preceding toggle click |
| `ActiveSection.LinkFor` | script.js:71 | the found link is the first one in document order whose `href` is exactly `#id`; `None` iff no link has that `href` |
| `ActiveSection.Activate` | script.js:74-75 | exactly link `k` is active afterwards, and hrefs and all other classes are unchanged |
| `ActiveSection.ProcessEntry` | script.js:68-77 | an entry with a non-empty id, a matching link and `isIntersecting` leaves exactly that link active; any other entry leaves the links unchanged |
| `ActiveSection.LastQualifying` | script.js:67-77 | reference: the position of the last qualifying entry in the batch, `None` iff no entry qualifies |
| `ActiveSection.LastQualifyingWins` | script.js:67-78 | over a batch, the link of the last qualifying entry is the only active one; with no qualifying entry the links are unchanged; hrefs and other classes never change |
| `ActiveSection.ProcessEntriesKeepsAtMostOne` | script.js:73-76 | if at most one nav link is active before a batch, at most one is active after it |
| `ActiveSection.PricingExample` | script.js:69-75 | an intersecting `#pricing` section makes the `#pricing` link active and clears `active` from the other link |
| `CaseCard.ClickToggle` | script.js:89-93 | `data-expanded` flips and is normal afterwards; the label is "Смотреть детали" iff the card was expanded before the click, else "Скрыть детали" |
| `CaseCard.ClickToggleCycle` | script.js:90-92 | after any click the label matches the new state; from a consistent card two clicks restore the card exactly |
| `CaseCard.ClickCard` | script.js:87-94 | a click on card `i` changes at most card `i`; a card without a toggle control ignores it |
| `CaseCard.ClicksCommute` | script.js:87-94 | clicks on two different cards commute |
| `Utm.Persist` | script.js:100-106 | each listed field present in the query is stored with the query's value, overwriting the old one; every other key keeps its presence and value; the flag is true iff some listed field is in the query |
| `Utm.Hydrate` | script.js:108-114 | every existing input named by a listed field gets the stored value, or `""`; every other input and every other property is unchanged |
| `Utm.Populate` | script.js:96-117 | storage gets the query's values for the four tags and nothing else changes; each existing tag input shows the query value if present, else the earlier stored value or `""`; the result is true iff some tag was in the query |
| `Utm.PopulateIdempotent` | script.js:96-117 | afterwards every tag input mirrors storage, and re-running with the same query changes neither storage nor inputs |
| `Utm.HydrateForgetsOldValues` | script.js:108-114 | the hydrated inputs do not depend on what the tag inputs held before |
| `Utm.LandingExample` | script.js:97-114 | on `?utm_source=ads&utm_campaign=spring` those two tags are stored and shown, and the medium and content inputs show their earlier stored values |
| `Email.ValidateEmailSound` | script.js:128-130 | every string the executable check accepts matches the pattern |
| `Email.ValidateEmailComplete` | script.js:128-130 | every string the pattern matches is accepted by the executable check |
| `Email.ValidateEmailMatchesRegex` | script.js:128-130 | the check accepts a string iff the pattern matches it |
| `Email.ValidateEmailCharacterization` | script.js:128-130 | the check accepts a string iff it has no whitespace, exactly one `@` at a position above 0, and a `.` strictly inside the domain |
| `Email.RegexExamples` | script.js:128-130 | `a@b.c` and `a@b..c` match; `a@b`, `a@.b`, `a@b.`, `ab.c` and `""` do not |
| `Email.TrimStart` | script.js:136 | the result is a suffix of the input, all dropped characters are whitespace, and it does not start with whitespace |
| `Email.TrimEnd` | script.js:136 | the result is a prefix of the input, all dropped characters are whitespace, and it does not end with whitespace |
| `Email.Trim` | script.js:136 | the result is a slice of the input with only whitespace outside it, and it neither starts nor ends with whitespace |
| `Email.TrimIdempotent` | script.js:136 | trimming twice equals trimming once |
| `Email.TrimExamples` | script.js:136 | ` a@b.c ` trims to `a@b.c`, and `a@b` is already trimmed |
| `ContactForm.Decide` | script.js:136-151 | the e-mail error comes iff the trimmed value fails the pattern, whatever the consent; the consent error comes iff the e-mail passes and consent is missing; success comes iff both hold |
| `ContactForm.ClearStatus` | script.js:134 | both status classes are removed and everything else is kept, so no status shows |
| `ContactForm.ShowMessage` | script.js:121-126 | a missing element is left alone; otherwise the text is replaced, `kind` is present, the other status class is absent, and other classes are kept |
| `ContactForm.Announce` | script.js:134-151 | after a submission the message shows exactly the outcome's style, error or success, with the outcome's text, and keeps unrelated classes |
| `ContactForm.Reset` | script.js:152 | every control of the form is back at its default value and checkedness; controls outside the form are untouched |
| `ContactForm.ResetAndRefill` | script.js:151-153 | after success, storage is what the capture writes; the tag inputs mirror storage and are not left empty by the reset; other form controls are at their defaults |
| `ContactForm.Submit` | script.js:132-154 | the outcome is the decision on the e-mail and consent; the message is announced; a rejection changes neither inputs nor storage; success resets and refills |
| `ContactForm.SubmitOutcomes` | script.js:136-153 | invalid e-mail gives the e-mail error with focus on the e-mail field; valid e-mail without consent gives the consent error with focus on the checkbox; both rejections keep inputs and storage; only valid e-mail with consent succeeds, shows success, and leaves tag inputs mirroring storage |
| `ContactForm.DecideExamples` | script.js:136-151 | ` a@b.c ` is trimmed and accepted with consent, and gets the consent error without it; `a@b` gets the e-mail error whatever the consent |
| `Page.Load` | script.js:16-166 | at start-up the header has `scrolled` iff the offset exceeds 10 and an existing call-to-action has `visible` iff it exceeds 400, with their other classes kept; the tags in the query are stored and every other storage key keeps its presence and value; the tag inputs take the stored value and nothing else of theirs changes; other inputs and the rest of the page are unchanged |
| `Page.Step` | script.js:16-166 | each event changes only its own region; only a submission needs the e-mail and consent controls; at most one active nav link is preserved; only submissions touch the message, the inputs and storage |
| `Page.StepRunsListener` | script.js:16-166 | a scroll applies both marks for the new offset and keeps other classes; a toggle click on an existing toggle runs the menu toggle, flipping the `aria-expanded` reading and `open`; a nav-link click on a page with nav links runs the close handler on the toggle and the list; a card toggle click runs that card's handler and leaves the other cards unchanged; a viewport batch runs the callback over its entries; a submission on a page with the form takes its inputs, message and storage from the submit handler |
| `Page.UnheardEventsChangeNothing` | script.js:27-132 | a click on a missing nav toggle, a nav-link click on a page without nav links, a click on a missing card or a card without its toggle control, and a submission on a page without the form change nothing |
| `Page.MessageFollowsSubmissions` | script.js:121-154 | the message state changes only on submission, and afterwards it is the outcome's state |
| `Page.StepKeepsUtmMirror` | script.js:108-153 | once the tag inputs mirror storage, every event keeps them mirroring it |

## Left out

- Listener registration, `DOMContentLoaded`, the element lookups and `focus()` are plumbing. Focus is modelled only as the tag `ContactForm.FocusOf`.
- When the viewport watcher fires and its geometry (`rootMargin`, `threshold`) are layout-engine behaviour. Only the callback body over a given entry sequence is modelled.
- Smooth-scroll offset arithmetic and `window.scrollTo` use floating-point layout values and animation. `Scroll.ScrollTarget` models only whether the click is taken over. A target that is not a valid selector (such as a bare `#`) makes the browser throw after the default is prevented; this is not modelled.
- `URLSearchParams` decoding is not modelled. The query is an already-decoded map from each name to its first value.
- Storage durability across reloads is not modelled, and neither is a `setItem` that throws because storage is full or disabled. Storage is a plain map.
- JavaScript strings are UTF-16 code units, but the model uses Unicode scalar values. For the e-mail pattern this changes nothing: every whitespace character is in the Basic Multilingual Plane, and both halves of a surrogate pair fall in `[^\s@]`.
- ActiveSection.LinkFor: CSS escape decoding in the link lookup is not modelled. The id is placed inside a quoted CSS string, where a `\` starts an escape, so an id such as `a\62` selects the link `#ab`. The model compares `href` with `#id` as exact text and finds no link there. An id containing `"` or a newline makes the selector invalid and the browser throws; that is not modelled either.
- The offset `scrollY` is a `real`. The comparisons with 10 and 400 are exact.
- Nav.ToggleClick: when the nav list is missing, the source throws after it writes `aria-expanded`. The model keeps that write and drops the exception.
- ContactForm.Submit: the source faults when the e-mail or consent control is missing, so it requires both controls to exist (`Page.Ready`). The fault path is not modelled.
- Utm.Hydrate: on an `<input type="hidden">`, setting `.value` also rewrites the `value` attribute, so `defaultValue` changes too. The model changes only `value`. The tag inputs are refilled right after every reset, so their final values are the same under either reading.
- ContactForm.Reset: restores `defaultValue`/`defaultChecked` for every control of the form. Because of the hidden-input case above, the browser's reset leaves a hidden tag input at its last hydrated value, while the model restores the page's original default. The refill right after the reset makes the final values agree.
- Page.Load: the header is assumed to exist. On a page without `.site-header` the start-up header update throws, and no later listener is registered and no tag is captured. That page is not modelled.
- Page.StepKeepsUtmMirror: the mirror is kept only across this page's own events. Real storage is shared with every page of the same origin, and another tab landing with different tags rewrites the keys. The script has no `storage` listener, so the tag inputs then differ from storage until the next successful submission. Writes from outside the page are not modelled.
- ContactForm.StateOf: a message carrying both status classes (possible only from markup, before any submission) counts as showing no status.
- The localised message texts are used only as distinct constants.
- The form has no submission transport to model.

=== FILE: active_section.dfy ===
/**
 Active-section highlighting. The viewport watcher reports a batch of
 entries; for each entry whose section has an id, whose id names a nav link
 (`href="#id"`), and which is intersecting, every nav link loses `active` and
 that link gains it. When and in which batches the browser reports entries is
 not modelled: the callback body is applied to a given entry sequence.
 */
module ActiveSection {
  import opened Dom

  const Active := "active"

  /** A nav link: its `href` attribute and its classes. */
  datatype Link = Link(href: Attr, classes: ClassList)

  /** One watcher entry: the observed section's `id` and whether it is intersecting. */
  datatype Entry = Entry(targetId: string, isIntersecting: bool)

  /** The `href` that names the section with id `id`. */
  function Anchor(id: string): string {
    "#" + id
  }

  /**
   The first link at or after `from`, in document order, whose `href` is
   exactly `#id` (`document.querySelector` returns the first match).
   */
  function FirstLinkFrom(links: seq<Link>, id: string, from: nat): (r: Option<nat>)
    requires from <= |links|
    ensures r.Some? ==> from <= r.value < |links| && links[r.value].href == Some(Anchor(id))
    ensures r.Some? ==> forall j :: from <= j < r.value ==> links[j].href != Some(Anchor(id))
    ensures r.None? ==> forall j :: from <= j < |links| ==> links[j].href != Some(Anchor(id))
    decreases |links| - from
  {
    if from == |links| then None
    else if links[from].href == Some(Anchor(id)) then Some(from)
    else FirstLinkFrom(links, id, from + 1)
  }

  /** The nav link the script finds for section `id`, if any. */
  function LinkFor(links: seq<Link>, id: string): (r: Option<nat>)
    ensures r.Some? ==> r.value < |links| && links[r.value].href == Some(Anchor(id))
    ensures r.Some? ==> forall j :: 0 <= j < r.value ==> links[j].href != Some(Anchor(id))
    ensures r.None? ==> forall j :: 0 <= j < |links| ==> links[j].href != Some(Anchor(id))
  {
    FirstLinkFrom(links, id, 0)
  }

  /** An entry that changes the highlight: non-empty id, a matching link, intersecting. */
  predicate Qualifies(links: seq<Link>, e: Entry) {
    e.targetId != "" && LinkFor(links, e.targetId).Some? && e.isIntersecting
  }

  /** Two link sequences that differ at most in the `active` class. */
  ghost predicate SameButActive(a: seq<Link>, b: seq<Link>) {
    && |a| == |b|
    && (forall j :: 0 <= j < |a| ==> a[j].href == b[j].href)
    && (forall j, c :: 0 <= j < |a| && c != Active ==> (c in a[j].classes <==> c in b[j].classes))
  }

  /** Exactly link `k` carries `active`. */
  predicate OnlyActive(links: seq<Link>, k: nat) {
    forall j :: 0 <= j < |links| ==> (Active in links[j].classes <==> j == k)
  }

  /** At most one nav link carries `active`. */
  predicate AtMostOneActive(links: seq<Link>) {
    forall i, j :: 0 <= i < |links| && 0 <= j < |links| && Active in links[i].classes && Active in links[j].classes ==> i == j
  }

  /** Clear `active` on every link, then add it to link `k`. */
  function Activate(links: seq<Link>, k: nat): (r: seq<Link>)
    requires k < |links|
    ensures SameButActive(links, r)
    ensures OnlyActive(r, k)
  {
    seq(|links|, j requires 0 <= j < |links| =>
      var cleared := RemoveClass(links[j].classes, Active);
      links[j].(classes := if j == k then AddClass(cleared, Active) else cleared))
  }

  /** The callback body for one entry. */
  function ProcessEntry(links: seq<Link>, e: Entry): (r: seq<Link>)
    ensures SameButActive(links, r)
    ensures Qualifies(links, e) ==> OnlyActive(r, LinkFor(links, e.targetId).value)
    ensures !Qualifies(links, e) ==> r == links
  {
    if e.targetId == "" then links
    else match LinkFor(links, e.targetId)
      case None => links
      case Some(k) => if e.isIntersecting then Activate(links, k) else links
  }

  /** The callback body for a batch: the entries are handled in order. */
  function ProcessEntries(links: seq<Link>, entries: seq<Entry>): seq<Link>
    decreases |entries|
  {
    if entries == [] then links
    else ProcessEntry(ProcessEntries(links, entries[..|entries| - 1]), entries[|entries| - 1])
  }

  /**
   Reference definition of the outcome of a batch: the position of the LAST
   qualifying entry, or `None` when no entry qualifies.
   */
  function LastQualifying(links: seq<Link>, entries: seq<Entry>): (r: Option<nat>)
    ensures r.None? ==> forall i :: 0 <= i < |entries| ==> !Qualifies(links, entries[i])
    ensures r.Some? ==> r.value < |entries| && Qualifies(links, entries[r.value])
    ensures r.Some? ==> forall i :: r.value < i < |entries| ==> !Qualifies(links, entries[i])
    decreases |entries|
  {
    if entries == [] then None
    else if Qualifies(links, entries[|entries| - 1]) then Some(|entries| - 1)
    else
      var init := entries[..|entries| - 1];
      assert forall i :: 0 <= i < |init| ==> init[i] == entries[i];
      LastQualifying(links, init)
  }

  /** The link the last qualifying entry names, if any entry qualifies. */
  function LastWinner(links: seq<Link>, entries: seq<Entry>): Option<nat> {
    match LastQualifying(links, entries)
    case None => None
    case Some(i) => LinkFor(links, entries[i].targetId)
  }

  /** Highlighting keeps every `href`, and which entry qualifies depends only on `href`s. */
  lemma QualifiesStable(a: seq<Link>, b: seq<Link>, e: Entry)
    requires SameButActive(a, b)
    ensures LinkFor(a, e.targetId) == LinkFor(b, e.targetId)
    ensures Qualifies(a, e) <==> Qualifies(b, e)
  {
    var x := LinkFor(a, e.targetId);
    var y := LinkFor(b, e.targetId);
    if x.Some? && y.Some? {
      assert !(x.value < y.value) && !(y.value < x.value);
    }
  }

  lemma SameButActiveTransitive(a: seq<Link>, b: seq<Link>, c: seq<Link>)
    requires SameButActive(a, b) && SameButActive(b, c)
    ensures SameButActive(a, c)
  {
  }

  /**
   Over a batch, the last qualifying entry wins: exactly its link is active
   and nothing else about the links changes; with no qualifying entry the
   links are unchanged.
   */
  lemma {:induction false} LastQualifyingWins(links: seq<Link>, entries: seq<Entry>)
    ensures SameButActive(links, ProcessEntries(links, entries))
    ensures LastWinner(links, entries).None? ==> ProcessEntries(links, entries) == links
    ensures LastWinner(links, entries).Some? ==>
              OnlyActive(ProcessEntries(links, entries), LastWinner(links, entries).value)
    decreases |entries|
  {
    if entries != [] {
      var init := entries[..|entries| - 1];
      var last := entries[|entries| - 1];
      var mid := ProcessEntries(links, init);
      LastQualifyingWins(links, init);
      QualifiesStable(links, mid, last);
      SameButActiveTransitive(links, mid, ProcessEntry(mid, last));
    }
  }

  /** Highlighting keeps the page's invariant that at most one nav link is active. */
  lemma ProcessEntriesKeepsAtMostOne(links: seq<Link>, entries: seq<Entry>)
    requires AtMostOneActive(links)
    ensures AtMostOneActive(ProcessEntries(links, entries))
  {
    LastQualifyingWins(links, entries);
  }

  /**
   An intersecting `#pricing` section activates exactly the `#pricing` link
   and clears `active` from the others, whatever was active before.
   */
  lemma PricingExample(other: ClassList, pricing: ClassList)
    ensures var r := ProcessEntry([Link(Some("#about"), other), Link(Some("#pricing"), pricing)], Entry("pricing", true));
            Active !in r[0].classes && Active in r[1].classes
  {
    var links := [Link(Some("#about"), other), Link(Some("#pricing"), pricing)];
    assert Anchor("pricing") == "#pricing";
    assert Anchor("pricing") != "#about";
    assert links[0].href != Some(Anchor("pricing"));
    assert FirstLinkFrom(links, "pricing", 1) == Some(1);
    assert LinkFor(links, "pricing") == Some(1);
  }
}

=== FILE: case_card.dfy ===
/**
 Expandable case-study cards. Each card carries a `data-expanded` attribute
 and at most one toggle control whose text is one of two fixed labels.
 */
module CaseCard {
  import opened Dom

  /** Label shown while the card is collapsed ("View details"). */
  const ShowDetails: string := "Смотреть детали"

  /** Label shown while the card is expanded ("Hide details"). */
  const HideDetails: string := "Скрыть детали"

  /**
   `expanded` is the card's `data-expanded` attribute; `toggle` is the text of
   its toggle control, `None` when the card has no toggle control.
   */
  datatype Card = Card(expanded: Attr, toggle: Option<string>)

  /**
   A click on the card's toggle control (the listener exists only when the
   control does): `data-expanded` flips, and the label is chosen from the
   state before the click.
   */
  function ClickToggle(card: Card): (r: Card)
    requires card.toggle.Some?
    ensures IsNormal(r.expanded)
    ensures IsTrue(r.expanded) <==> !IsTrue(card.expanded)
    ensures r.toggle.Some?
    ensures r.toggle.value == ShowDetails <==> IsTrue(card.expanded)
    ensures r.toggle.value == HideDetails <==> !IsTrue(card.expanded)
  {
    var expanded := IsTrue(card.expanded);
    Card(Some(BoolText(!expanded)), Some(if expanded then ShowDetails else HideDetails))
  }

  /** The card's attribute is normal and its label names the action a click would take. */
  predicate Consistent(card: Card) {
    && IsNormal(card.expanded)
    && card.toggle == Some(if IsTrue(card.expanded) then HideDetails else ShowDetails)
  }

  /**
   Every click leaves the card consistent, and from a consistent card two
   clicks restore it exactly (a two-state cycle).
   */
  lemma ClickToggleCycle(card: Card)
    requires card.toggle.Some?
    ensures Consistent(ClickToggle(card))
    ensures Consistent(card) ==> ClickToggle(ClickToggle(card)) == card
  {
  }

  /** A click on the toggle of card `i`; a card without a toggle control ignores it. */
  function ClickCard(cards: seq<Card>, i: nat): (r: seq<Card>)
    requires i < |cards|
    ensures |r| == |cards|
    ensures cards[i].toggle.Some? ==> r[i] == ClickToggle(cards[i])
    ensures cards[i].toggle.None? ==> r[i] == cards[i]
    ensures forall j :: 0 <= j < |cards| && j != i ==> r[j] == cards[j]
  {
    if cards[i].toggle.Some? then cards[i := ClickToggle(cards[i])] else cards
  }

  /** Clicks on two different cards commute: cards do not interact. */
  lemma ClicksCommute(cards: seq<Card>, i: nat, j: nat)
    requires i < |cards| && j < |cards| && i != j
    ensures ClickCard(ClickCard(cards, i), j) == ClickCard(ClickCard(cards, j), i)
  {
    var a := ClickCard(ClickCard(cards, i), j);
    var b := ClickCard(ClickCard(cards, j), i);
    assert forall k :: 0 <= k < |cards| ==> a[k] == b[k];
  }
}

=== FILE: contact_form.dfy ===
/**
 The contact form's submit handler. Nothing is sent anywhere: a submission
 is judged on the trimmed e-mail and the consent checkbox, the response
 message is styled as an error or a success, and on success the form is
 reset and the campaign-tag inputs are filled again from storage.
 */
module ContactForm {
  import opened Dom
  import opened Email
  import opened Utm

  /** Ids of the two controls the handler reads. */
  const EmailId := "email"
  const ConsentId := "consent"

  /** The two style classes of the response message. */
  const ErrorClass := "error"
  const SuccessClass := "success"

  /** The three fixed message texts. */
  const EmailErrorText := "Укажите корректный e-mail, чтобы мы ответили."
  const ConsentErrorText := "Подтвердите согласие на обработку данных."
  const SuccessText := "Спасибо! Заявка сохранена, свяжемся в рабочее время."

  /** The three ways a submission can end. */
  datatype Outcome = InvalidEmail | MissingConsent | Accepted

  /** Where the handler moves keyboard focus. */
  datatype Focus = EmailField | ConsentCheckbox | Unmoved

  function FocusOf(o: Outcome): Focus {
    match o
    case InvalidEmail => EmailField
    case MissingConsent => ConsentCheckbox
    case Accepted => Unmoved
  }

  /** The message text shown for an outcome. */
  function TextOf(o: Outcome): string {
    match o
    case InvalidEmail => EmailErrorText
    case MissingConsent => ConsentErrorText
    case Accepted => SuccessText
  }

  /** The style class applied for an outcome. */
  function KindOf(o: Outcome): string {
    if o == Accepted then SuccessClass else ErrorClass
  }

  /**
   The decision: the e-mail is checked first, so an invalid e-mail wins
   whatever the checkbox says; consent is looked at only for a valid e-mail.
   */
  function Decide(email: string, consent: bool): (o: Outcome)
    ensures o == InvalidEmail <==> !RegexMatch(Trim(email))
    ensures o == MissingConsent <==> RegexMatch(Trim(email)) && !consent
    ensures o == Accepted <==> RegexMatch(Trim(email)) && consent
  {
    var value := Trim(email);
    ValidateEmailMatchesRegex(value);
    if !ValidateEmail(value) then InvalidEmail
    else if !consent then MissingConsent
    else Accepted
  }

  /** The response-message element: its text and classes. */
  datatype Message = Message(text: string, classes: ClassList)

  /** What the visitor sees in the message area. */
  datatype MessageState = Hidden | ErrorShown | SuccessShown

  /**
   A message styled with exactly one of the two classes shows that style; with
   neither (or, before any submission, with both) no status is shown. A
   missing element shows nothing.
   */
  function StateOf(m: Option<Message>): MessageState {
    match m
    case None => Hidden
    case Some(msg) =>
      if ErrorClass in msg.classes && SuccessClass !in msg.classes then ErrorShown
      else if SuccessClass in msg.classes && ErrorClass !in msg.classes then SuccessShown
      else Hidden
  }

  /** The message state an outcome leads to. */
  function StateFor(o: Outcome): MessageState {
    if o == Accepted then SuccessShown else ErrorShown
  }

  /** `classList.remove('error', 'success')`, skipped when the element is missing. */
  function ClearStatus(m: Option<Message>): (r: Option<Message>)
    ensures r.Some? <==> m.Some?
    ensures r.Some? ==> r.value.text == m.value.text
    ensures r.Some? ==> ErrorClass !in r.value.classes && SuccessClass !in r.value.classes
    ensures r.Some? ==> forall c :: c != ErrorClass && c != SuccessClass ==> (c in r.value.classes <==> c in m.value.classes)
    ensures StateOf(r) == Hidden
  {
    match m
    case None => None
    case Some(msg) => Some(msg.(classes := RemoveClass(RemoveClass(msg.classes, ErrorClass), SuccessClass)))
  }

  /**
   `showMessage(text, kind)`: a missing element is left alone; otherwise the
   text is replaced, both status classes are removed and `kind` is added.
   */
  function ShowMessage(m: Option<Message>, text: string, kind: string): (r: Option<Message>)
    ensures r.Some? <==> m.Some?
    ensures r.Some? ==> r.value.text == text && kind in r.value.classes
    ensures r.Some? ==> forall c :: (c == ErrorClass || c == SuccessClass) && c != kind ==> c !in r.value.classes
    ensures r.Some? ==> forall c :: c != ErrorClass && c != SuccessClass && c != kind ==>
              (c in r.value.classes <==> c in m.value.classes)
  {
    match m
    case None => None
    case Some(msg) =>
      var cleared := RemoveClass(RemoveClass(msg.classes, ErrorClass), SuccessClass);
      Some(Message(text, AddClass(cleared, kind)))
  }

  /** `form.reset()`: every control of the form goes back to its default. */
  function Reset(inputs: map<string, Input>): (r: map<string, Input>)
    ensures r.Keys == inputs.Keys
    ensures forall k :: k in inputs && inputs[k].inForm ==>
              r[k] == inputs[k].(value := inputs[k].defaultValue, checked := inputs[k].defaultChecked)
    ensures forall k :: k in inputs && !inputs[k].inForm ==> r[k] == inputs[k]
  {
    map k | k in inputs ::
      if inputs[k].inForm then inputs[k].(value := inputs[k].defaultValue, checked := inputs[k].defaultChecked)
      else inputs[k]
  }

  /**
   The message after a submission: the initial clearing of both
   status classes followed by `showMessage` for the outcome. Exactly the outcome's
   style is shown, with the outcome's text; other classes are kept.
   */
  function Announce(m: Option<Message>, o: Outcome): (r: Option<Message>)
    ensures r.Some? <==> m.Some?
    ensures StateOf(r) == (if m.Some? then StateFor(o) else Hidden)
    ensures r.Some? ==> r.value.text == TextOf(o)
    ensures r.Some? ==> forall c :: c != ErrorClass && c != SuccessClass ==>
              (c in r.value.classes <==> c in m.value.classes)
  {
    ShowMessage(ClearStatus(m), TextOf(o), KindOf(o))
  }

  /**
   The success path after the message: `form.reset()` then the capture over
   `fields` (the four UTM names in the page).
   */
  function ResetAndRefill(inputs: map<string, Input>, storage: Storage, query: Query, fields: seq<string>): (r: Populated)
    ensures r.storage == Populate(storage, inputs, query, fields).storage
    ensures r.inputs.Keys == inputs.Keys
    ensures Mirrors(r.storage, r.inputs, fields)
    ensures forall k :: k in inputs && k !in fields && inputs[k].inForm ==>
              r.inputs[k].value == inputs[k].defaultValue && r.inputs[k].checked == inputs[k].defaultChecked
    ensures forall k :: k in inputs && k !in fields && !inputs[k].inForm ==> r.inputs[k] == inputs[k]
  {
    var reset := Reset(inputs);
    PopulateIdempotent(storage, reset, query, fields);
    Populate(storage, reset, query, fields)
  }

  /** The state the submit handler reads and writes. */
  datatype FormState = FormState(inputs: map<string, Input>, message: Option<Message>, storage: Storage)

  datatype Submitted = Submitted(outcome: Outcome, form: FormState)

  /**
   The submit handler. The e-mail and consent controls are read without a
   guard, so the page must provide both. A rejected submission changes only
   the message; an accepted one also resets the form and refills the
   campaign-tag inputs from storage.
   */
  function Submit(f: FormState, query: Query): (r: Submitted)
    requires EmailId in f.inputs && ConsentId in f.inputs
    ensures r.outcome == Decide(f.inputs[EmailId].value, f.inputs[ConsentId].checked)
    ensures r.form.message == Announce(f.message, r.outcome)
    ensures r.outcome != Accepted ==> r.form.inputs == f.inputs && r.form.storage == f.storage
    ensures r.outcome == Accepted ==>
              var p := ResetAndRefill(f.inputs, f.storage, query, UtmFields);
              r.form.inputs == p.inputs && r.form.storage == p.storage
  {
    var o := Decide(f.inputs[EmailId].value, f.inputs[ConsentId].checked);
    var shown := Announce(f.message, o);
    if o != Accepted then
      Submitted(o, f.(message := shown))
    else
      var p := ResetAndRefill(f.inputs, f.storage, query, UtmFields);
      Submitted(o, FormState(p.inputs, shown, p.storage))
  }

  /**
   The three-way outcome in full: an invalid e-mail is reported with focus on
   the e-mail field whatever the checkbox says, a valid e-mail without consent
   is reported with focus on the checkbox, and only both together succeed.
   Rejections touch nothing but the message; success refills the UTM inputs.
   */
  lemma SubmitOutcomes(f: FormState, query: Query)
    requires EmailId in f.inputs && ConsentId in f.inputs
    ensures var email := Trim(f.inputs[EmailId].value);
            var r := Submit(f, query);
            !RegexMatch(email) ==>
              && r.outcome == InvalidEmail && FocusOf(r.outcome) == EmailField
              && StateOf(r.form.message) == (if f.message.Some? then ErrorShown else Hidden)
              && r.form.inputs == f.inputs && r.form.storage == f.storage
    ensures var email := Trim(f.inputs[EmailId].value);
            var r := Submit(f, query);
            RegexMatch(email) && !f.inputs[ConsentId].checked ==>
              && r.outcome == MissingConsent && FocusOf(r.outcome) == ConsentCheckbox
              && StateOf(r.form.message) == (if f.message.Some? then ErrorShown else Hidden)
              && r.form.inputs == f.inputs && r.form.storage == f.storage
    ensures var email := Trim(f.inputs[EmailId].value);
            var r := Submit(f, query);
            RegexMatch(email) && f.inputs[ConsentId].checked ==>
              && r.outcome == Accepted && FocusOf(r.outcome) == Unmoved
              && StateOf(r.form.message) == (if f.message.Some? then SuccessShown else Hidden)
              && Mirrors(r.form.storage, r.form.inputs, UtmFields)
  {
  }

  /**
   ` a@b.c ` (trimmed first) with consent succeeds and without consent fails
   on the checkbox; `a@b` fails on the e-mail whatever the checkbox says.
   */
  lemma DecideExamples(consent: bool)
    ensures Decide(" a@b.c ", true) == Accepted
    ensures Decide(" a@b.c ", false) == MissingConsent
    ensures Decide("a@b", consent) == InvalidEmail
  {
    RegexExamples();
    TrimExamples();
  }
}

=== FILE: dom.dfy ===
/**
 The small slice of the browser's document model that the page script touches:
 optional elements and attributes, class lists, string-valued boolean
 attributes, and form inputs. Every DOM node is a plain immutable value here;
 an event handler is a function from the old values to the new ones.
 */
module Dom {

  /** An element or attribute that may be missing (`null` in the script). */
  datatype Option<+T> = None | Some(value: T)

  /** The value of an attribute read with `getAttribute`: `None` when absent. */
  type Attr = Option<string>

  /** The set of CSS classes of an element (`element.classList`). */
  type ClassList = set<string>

  /** `classList.add(c)`: `c` is present afterwards, nothing else changes. */
  function AddClass(cl: ClassList, c: string): (r: ClassList)
    ensures c in r
    ensures forall x :: x != c ==> (x in r <==> x in cl)
  {
    cl + {c}
  }

  /** `classList.remove(c)`: `c` is absent afterwards, nothing else changes. */
  function RemoveClass(cl: ClassList, c: string): (r: ClassList)
    ensures c !in r
    ensures forall x :: x != c ==> (x in r <==> x in cl)
  {
    cl - {c}
  }

  /** `classList.toggle(c)`: membership of `c` flips, nothing else changes. */
  function ToggleClass(cl: ClassList, c: string): (r: ClassList)
    ensures c in r <==> c !in cl
    ensures forall x :: x != c ==> (x in r <==> x in cl)
  {
    if c in cl then cl - {c} else cl + {c}
  }

  /** Toggling the same class twice restores the class list. */
  lemma ToggleClassInvolution(cl: ClassList, c: string)
    ensures ToggleClass(ToggleClass(cl, c), c) == cl
  {
  }

  /** `String(b)` for a boolean: the text the script writes into an attribute. */
  function BoolText(b: bool): (r: string)
    ensures r == "true" <==> b
    ensures r == "false" <==> !b
  {
    if b then "true" else "false"
  }

  /** `getAttribute(name) === 'true'`: only the exact text "true" reads as set. */
  predicate IsTrue(a: Attr) {
    a == Some("true")
  }

  /** An attribute holding one of the two texts `String(b)` can produce. */
  predicate IsNormal(a: Attr) {
    a == Some("true") || a == Some("false")
  }

  /** Writing `String(b)` and reading it back with `=== 'true'` gives `b`. */
  lemma BoolTextRoundTrip(b: bool)
    ensures IsTrue(Some(BoolText(b))) == b
    ensures IsNormal(Some(BoolText(b)))
  {
  }

  /**
   A form control (`<input>`), found by its `id`. `value`/`checked` are the
   live state; `defaultValue`/`defaultChecked` are what `form.reset()`
   restores; `inForm` says whether the control belongs to the contact form.
   */
  datatype Input = Input(
    value: string,
    defaultValue: string,
    checked: bool,
    defaultChecked: bool,
    inForm: bool)
}

=== FILE: email.dfy ===
/**
 The contact form's e-mail check: the value is trimmed and then matched
 against the pattern `^[^\s@]+@[^\s@]+\.[^\s@]+$`, a permissive
 "one @, then a dot with text on both sides" shape.

 Characters are Unicode scalar values. The whitespace set is the one the
 ECMAScript language uses both for `\s` in patterns and for
 `String.prototype.trim`: its WhiteSpace and LineTerminator characters.
 */
module Email {
  import opened Dom

  /** WhiteSpace or LineTerminator in the sense of ECMAScript (sections 12.2 and 12.3 of ECMA-262). */
  predicate IsSpace(c: char) {
    || c == '\t' || c == '\n' || c == '\U{000B}' || c == '\U{000C}' || c == '\r' || c == ' '
    || c == '\U{00A0}' || c == '\U{1680}' || ('\U{2000}' <= c <= '\U{200A}')
    || c == '\U{2028}' || c == '\U{2029}' || c == '\U{202F}' || c == '\U{205F}'
    || c == '\U{3000}' || c == '\U{FEFF}'
  }

  /** A character of the class `[^\s@]`. */
  predicate Plain(c: char) {
    !IsSpace(c) && c != '@'
  }

  /** A string matching `[^\s@]+`. */
  predicate PlainRun(t: string) {
    |t| > 0 && forall m :: 0 <= m < |t| ==> Plain(t[m])
  }

  /**
   The pattern read as a language: the string splits as
   local `@` middle `.` last, each of the three parts in `[^\s@]+`.
   This is the reference the executable check is proved against.
   */
  ghost predicate RegexMatch(s: string) {
    exists i, j :: 0 <= i < j < |s| && s[i] == '@' && s[j] == '.'
      && PlainRun(s[..i]) && PlainRun(s[i + 1..j]) && PlainRun(s[j + 1..])
  }

  predicate NoSpace(s: string) {
    forall m :: 0 <= m < |s| ==> !IsSpace(s[m])
  }

  predicate NoAt(s: string) {
    forall m :: 0 <= m < |s| ==> s[m] != '@'
  }

  /** A `.` at some position strictly between the first and the last character. */
  predicate HasInnerDot(d: string) {
    exists i :: 0 < i < |d| - 1 && d[i] == '.'
  }

  /** The position of the first `c` in `s` at or after `from`. */
  function IndexOfFrom(s: string, c: char, from: nat): (r: Option<nat>)
    requires from <= |s|
    ensures r.Some? ==> from <= r.value < |s| && s[r.value] == c
    ensures r.Some? ==> forall m :: from <= m < r.value ==> s[m] != c
    ensures r.None? ==> forall m :: from <= m < |s| ==> s[m] != c
    decreases |s| - from
  {
    if from == |s| then None
    else if s[from] == c then Some(from)
    else IndexOfFrom(s, c, from + 1)
  }

  /** The position of the first `c` in `s`, if any. */
  function IndexOf(s: string, c: char): Option<nat> {
    IndexOfFrom(s, c, 0)
  }

  /**
   `validateEmail`: no whitespace anywhere, a non-empty part before the first
   `@`, and after it no further `@` and an inner dot.
   */
  predicate ValidateEmail(s: string) {
    && NoSpace(s)
    && match IndexOf(s, '@')
       case None => false
       case Some(k) => k > 0 && NoAt(s[k + 1..]) && HasInnerDot(s[k + 1..])
  }

  /** Every string the executable check accepts is matched by the pattern. */
  lemma ValidateEmailSound(s: string)
    requires ValidateEmail(s)
    ensures RegexMatch(s)
  {
    var k := IndexOf(s, '@').value;
    var d := s[k + 1..];
    var i :| 0 < i < |d| - 1 && d[i] == '.';
    var j := k + 1 + i;
    assert s[j] == d[i];
    assert PlainRun(s[..k]);
    assert forall m :: k < m < |s| ==> Plain(s[m]) by {
      forall m | k < m < |s|
        ensures Plain(s[m])
      {
        assert s[m] == d[m - (k + 1)];
      }
    }
    assert PlainRun(s[k + 1..j]);
    assert PlainRun(s[j + 1..]);
  }

  /** Under a pattern split at `i` and `j`, every character but the `@` is in `[^\s@]`. */
  lemma SplitIsPlain(s: string, i: nat, j: nat)
    requires i < j < |s| && s[j] == '.'
    requires PlainRun(s[..i]) && PlainRun(s[i + 1..j]) && PlainRun(s[j + 1..])
    ensures forall m :: 0 <= m < |s| && m != i ==> Plain(s[m])
  {
    forall m | 0 <= m < |s| && m != i
      ensures Plain(s[m])
    {
      if m < i {
        assert s[m] == s[..i][m];
      } else if m < j {
        assert s[m] == s[i + 1..j][m - (i + 1)];
      } else if m > j {
        assert s[m] == s[j + 1..][m - (j + 1)];
      }
    }
  }

  /** Every string the pattern matches is accepted by the executable check. */
  lemma ValidateEmailComplete(s: string)
    requires RegexMatch(s)
    ensures ValidateEmail(s)
  {
    var i, j :| 0 <= i < j < |s| && s[i] == '@' && s[j] == '.'
      && PlainRun(s[..i]) && PlainRun(s[i + 1..j]) && PlainRun(s[j + 1..]);
    SplitIsPlain(s, i, j);
    assert NoSpace(s);
    assert IndexOf(s, '@') == Some(i);
    var d := s[i + 1..];
    assert d[j - (i + 1)] == '.';
    assert HasInnerDot(d);
    assert NoAt(d);
  }

  /** The executable check accepts exactly the strings the pattern matches. */
  lemma ValidateEmailMatchesRegex(s: string)
    ensures ValidateEmail(s) <==> RegexMatch(s)
  {
    if ValidateEmail(s) {
      ValidateEmailSound(s);
    }
    if RegexMatch(s) {
      ValidateEmailComplete(s);
    }
  }

  /** The positions of `@` in `s`. */
  function AtPositions(s: string): set<nat> {
    set m: nat | m < |s| && s[m] == '@'
  }

  /**
   The check in words: no whitespace, exactly one `@`, a non-empty part before
   it, and a domain with a `.` that is neither its first nor its last character.
   */
  lemma ValidateEmailCharacterization(s: string)
    ensures ValidateEmail(s) <==>
              NoSpace(s) && exists k :: AtPositions(s) == {k} && 0 < k && HasInnerDot(s[k + 1..])
  {
    if ValidateEmail(s) {
      SingleAtFromCheck(s);
    }
    if NoSpace(s) && exists k :: AtPositions(s) == {k} && 0 < k && HasInnerDot(s[k + 1..]) {
      var k :| AtPositions(s) == {k} && 0 < k && HasInnerDot(s[k + 1..]);
      CheckFromSingleAt(s, k);
    }
  }

  lemma SingleAtFromCheck(s: string)
    requires ValidateEmail(s)
    ensures AtPositions(s) == {IndexOf(s, '@').value}
  {
    var k := IndexOf(s, '@').value;
    forall m: nat | m < |s| && s[m] == '@'
      ensures m == k
    {
    }
  }

  lemma CheckFromSingleAt(s: string, k: nat)
    requires NoSpace(s) && AtPositions(s) == {k} && 0 < k && HasInnerDot(s[k + 1..])
    ensures ValidateEmail(s)
  {
    assert k in AtPositions(s);
    forall m | 0 <= m < |s| && s[m] == '@'
      ensures m == k
    {
      assert m in AtPositions(s);
    }
    assert IndexOf(s, '@') == Some(k);
    assert NoAt(s[k + 1..]);
  }

  /** The concrete addresses the pattern accepts. */
  lemma RegexAccepts()
    ensures RegexMatch("a@b.c") && RegexMatch("a@b..c")
  {
    var s1 := "a@b.c";
    assert s1[..1] == "a" && s1[2..3] == "b" && s1[4..] == "c";
    assert 0 <= 1 < 3 < |s1| && s1[1] == '@' && s1[3] == '.'
      && PlainRun(s1[..1]) && PlainRun(s1[1 + 1..3]) && PlainRun(s1[3 + 1..]);
    var s2 := "a@b..c";
    assert s2[..1] == "a" && s2[2..3] == "b" && s2[4..] == ".c";
    assert 0 <= 1 < 3 < |s2| && s2[1] == '@' && s2[3] == '.'
      && PlainRun(s2[..1]) && PlainRun(s2[1 + 1..3]) && PlainRun(s2[3 + 1..]);
  }

  /** `a@b` and `ab.c` lack a dot after the `@` or the `@` itself. */
  lemma RegexRejectsMissingParts()
    ensures !RegexMatch("a@b") && !RegexMatch("ab.c") && !RegexMatch("")
  {
    ValidateEmailMatchesRegex("a@b");
    ValidateEmailMatchesRegex("ab.c");
    ValidateEmailMatchesRegex("");
    assert IndexOf("a@b", '@') == Some(1);
    assert IndexOf("ab.c", '@') == None;
  }

  /** `a@.b` and `a@b.` put the dot first or last in the domain. */
  lemma RegexRejectsEdgeDots()
    ensures !RegexMatch("a@.b") && !RegexMatch("a@b.")
  {
    ValidateEmailMatchesRegex("a@.b");
    ValidateEmailMatchesRegex("a@b.");
    assert IndexOf("a@.b", '@') == Some(1);
    assert IndexOf("a@b.", '@') == Some(1);
  }

  /** The concrete cases the page's behaviour is judged by. */
  lemma RegexExamples()
    ensures RegexMatch("a@b.c") && RegexMatch("a@b..c")
    ensures !RegexMatch("a@b") && !RegexMatch("a@.b") && !RegexMatch("a@b.")
    ensures !RegexMatch("ab.c") && !RegexMatch("")
  {
    RegexAccepts();
    RegexRejectsMissingParts();
    RegexRejectsEdgeDots();
  }

  /** `String.prototype.trimStart`: drop the leading whitespace. */
  function TrimStart(s: string): (r: string)
    ensures |r| <= |s| && r == s[|s| - |r|..]
    ensures forall m :: 0 <= m < |s| - |r| ==> IsSpace(s[m])
    ensures |r| > 0 ==> !IsSpace(r[0])
  {
    if |s| > 0 && IsSpace(s[0]) then TrimStart(s[1..]) else s
  }

  /** `String.prototype.trimEnd`: drop the trailing whitespace. */
  function TrimEnd(s: string): (r: string)
    ensures |r| <= |s| && r == s[..|r|]
    ensures forall m :: |r| <= m < |s| ==> IsSpace(s[m])
    ensures |r| > 0 ==> !IsSpace(r[|r| - 1])
  {
    if |s| > 0 && IsSpace(s[|s| - 1]) then TrimEnd(s[..|s| - 1]) else s
  }

  /**
   `r` is the slice of `s` starting at `i`, and everything of `s` outside
   that slice is whitespace.
   */
  predicate TrimmedAt(s: string, r: string, i: nat) {
    && i + |r| <= |s| && r == s[i..i + |r|]
    && (forall m :: 0 <= m < i ==> IsSpace(s[m]))
    && (forall m :: i + |r| <= m < |s| ==> IsSpace(s[m]))
  }

  /** A prefix of a suffix is a slice. */
  lemma PrefixOfSuffix(s: string, t: string, r: string)
    requires |r| <= |t| <= |s| && t == s[|s| - |t|..] && r == t[..|r|]
    ensures r == s[|s| - |t|..|s| - |t| + |r|]
  {
  }

  /** Whitespace at the end of a suffix `t` of `s` is whitespace at the end of `s`. */
  lemma SpaceTailOfSuffix(s: string, t: string, keep: nat)
    requires |t| <= |s| && t == s[|s| - |t|..]
    requires keep <= |t|
    requires forall m :: keep <= m < |t| ==> IsSpace(t[m])
    ensures forall m :: |s| - |t| + keep <= m < |s| ==> IsSpace(s[m])
  {
    var i := |s| - |t|;
    forall m | i + keep <= m < |s|
      ensures IsSpace(s[m])
    {
      assert s[m] == t[m - i];
    }
  }

  /**
   A prefix `r` of a suffix `t` of `s`, with only whitespace before `t` and
   only whitespace after `r` inside `t`, is `s` trimmed at `|s| - |t|`.
   */
  lemma SliceOfSuffix(s: string, t: string, r: string)
    requires |t| <= |s| && t == s[|s| - |t|..]
    requires forall m :: 0 <= m < |s| - |t| ==> IsSpace(s[m])
    requires |r| <= |t| && r == t[..|r|]
    requires forall m :: |r| <= m < |t| ==> IsSpace(t[m])
    ensures TrimmedAt(s, r, |s| - |t|)
  {
    PrefixOfSuffix(s, t, r);
    SpaceTailOfSuffix(s, t, |r|);
  }

  /** Trimming both ends leaves a slice with whitespace only outside it. */
  lemma TrimBothEnds(s: string)
    ensures TrimmedAt(s, TrimEnd(TrimStart(s)), |s| - |TrimStart(s)|)
  {
    var t := TrimStart(s);
    var r := TrimEnd(t);
    assert |t| <= |s| && t == s[|s| - |t|..];
    assert forall m :: 0 <= m < |s| - |t| ==> IsSpace(s[m]);
    assert |r| <= |t| && r == t[..|r|];
    assert forall m :: |r| <= m < |t| ==> IsSpace(t[m]);
    SliceOfSuffix(s, t, r);
  }

  /**
   `String.prototype.trim`: the result is the slice of `s` left after
   removing whitespace from both ends, and it neither starts nor ends with
   whitespace.
   */
  function Trim(s: string): (r: string)
    ensures |r| > 0 ==> !IsSpace(r[0]) && !IsSpace(r[|r| - 1])
    ensures exists i :: TrimmedAt(s, r, i)
  {
    var t := TrimStart(s);
    var r := TrimEnd(t);
    TrimBothEnds(s);
    assert |r| > 0 ==> r[0] == t[0];
    r
  }

  /** Trimming an already trimmed value changes nothing. */
  lemma TrimIdempotent(s: string)
    ensures Trim(Trim(s)) == Trim(s)
  {
    var r := Trim(s);
    if |r| > 0 {
      assert TrimStart(r) == r;
      assert TrimEnd(r) == r;
    }
  }

  /** Trimming a padded address and an unpadded one. */
  lemma TrimExamples()
    ensures Trim(" a@b.c ") == "a@b.c"
    ensures Trim("a@b") == "a@b"
  {
    TrimStartExample();
    TrimEndExample();
  }

  lemma TrimStartExample()
    ensures TrimStart(" a@b.c ") == "a@b.c "
  {
    var padded := " a@b.c ";
    assert padded[1..] == "a@b.c ";
    assert IsSpace(padded[0]);
    assert !IsSpace(padded[1..][0]);
  }

  lemma TrimEndExample()
    ensures TrimEnd("a@b.c ") == "a@b.c"
  {
    var tail := "a@b.c ";
    assert tail[..|tail| - 1] == "a@b.c";
  }
}

=== FILE: nav.dfy ===
/**
 The mobile navigation: a toggle button carrying `aria-expanded` and a nav
 list carrying the `open` class. Either element may be missing from the page.
 */
module Nav {
  import opened Dom

  const Open := "open"

  /**
   `toggle` is the toggle button's `aria-expanded` attribute (`None` when the
   page has no toggle button); `list` is the nav list's class list (`None`
   when the page has no nav list).
   */
  datatype NavState = NavState(toggle: Option<Attr>, list: Option<ClassList>)

  /**
   A click on the toggle button (the listener exists only when the button
   does). `aria-expanded` becomes `String(!expanded)` and `open` flips. When
   the nav list is missing the script has already written the attribute
   before it faults on the list, so only the attribute changes.
   */
  function ToggleClick(s: NavState): (r: NavState)
    requires s.toggle.Some?
    ensures r.toggle.Some? && IsNormal(r.toggle.value)
    ensures IsTrue(r.toggle.value) <==> !IsTrue(s.toggle.value)
    ensures r.list.Some? <==> s.list.Some?
    ensures r.list.Some? ==> (Open in r.list.value <==> Open !in s.list.value)
    ensures r.list.Some? ==> forall c :: c != Open ==> (c in r.list.value <==> c in s.list.value)
  {
    var expanded := IsTrue(s.toggle.value);
    NavState(
      Some(Some(BoolText(!expanded))),
      match s.list
      case Some(cl) => Some(ToggleClass(cl, Open))
      case None => None)
  }

  /**
   A click on any nav link: the list loses `open` and the toggle reads
   `aria-expanded="false"`, each only if the element exists.
   */
  function LinkClick(s: NavState): (r: NavState)
    ensures r.toggle.Some? <==> s.toggle.Some?
    ensures r.toggle.Some? ==> r.toggle.value == Some("false")
    ensures r.list.Some? <==> s.list.Some?
    ensures r.list.Some? ==> Open !in r.list.value
    ensures r.list.Some? ==> forall c :: c != Open ==> (c in r.list.value <==> c in s.list.value)
  {
    NavState(
      match s.toggle
      case Some(_) => Some(Some(BoolText(false)))
      case None => None,
      match s.list
      case Some(cl) => Some(RemoveClass(cl, Open))
      case None => None)
  }

  /** The toggle's attribute holds one of the two texts the script writes. */
  predicate Normal(s: NavState) {
    s.toggle.Some? && IsNormal(s.toggle.value)
  }

  /** Two toggle clicks from a normal state restore both the attribute and the class. */
  lemma ToggleTwiceRestores(s: NavState)
    requires Normal(s)
    ensures ToggleClick(ToggleClick(s)) == s
  {
    if s.list.Some? {
      ToggleClassInvolution(s.list.value, Open);
    }
  }

  /**
   From any state (also a missing or odd `aria-expanded`) two toggle clicks
   restore the list and the attribute's reading, and leave it normal.
   */
  lemma ToggleTwiceRestoresReading(s: NavState)
    requires s.toggle.Some?
    ensures Normal(ToggleClick(ToggleClick(s)))
    ensures IsTrue(ToggleClick(ToggleClick(s)).toggle.value) == IsTrue(s.toggle.value)
    ensures ToggleClick(ToggleClick(s)).list == s.list
  {
    if s.list.Some? {
      ToggleClassInvolution(s.list.value, Open);
    }
  }

  /** A link click is a reset: repeating it changes nothing, and it forgets any toggling before it. */
  lemma LinkClickIsReset(s: NavState)
    ensures LinkClick(LinkClick(s)) == LinkClick(s)
    ensures s.toggle.Some? ==> LinkClick(ToggleClick(s)) == LinkClick(s)
  {
    if s.list.Some? {
      var cl := s.list.value;
      assert RemoveClass(RemoveClass(cl, Open), Open) == RemoveClass(cl, Open);
      assert RemoveClass(ToggleClass(cl, Open), Open) == RemoveClass(cl, Open);
    }
  }
}

=== FILE: page.dfy ===
/**
 The page controller as a whole: the state of every region the script
 touches, what happens when the structural content is ready, and one step per
 user or browser event. Each listener is independent, so each event changes
 only its own region.
 */
module Page {
  import opened Dom
  import Scroll
  import Nav
  import ActiveSection
  import CaseCard
  import Utm
  import ContactForm

  /**
   The page's state. `hasForm` says whether the contact form exists (its
   listener is registered only then); `query` is the decoded query string of
   the page's address.
   */
  datatype PageState = PageState(
    header: ClassList,
    cta: Option<ClassList>,
    nav: Nav.NavState,
    links: seq<ActiveSection.Link>,
    cards: seq<CaseCard.Card>,
    hasForm: bool,
    inputs: map<string, Input>,
    message: Option<ContactForm.Message>,
    storage: Utm.Storage,
    query: Utm.Query)

  /** The events the script listens to. */
  datatype Event =
    | Scrolled(scrollY: real)
    | NavToggleClicked
    | NavLinkClicked  // a click on one of the nav links (`links`)
    | CardToggleClicked(card: nat)
    | SectionsObserved(entries: seq<ActiveSection.Entry>)
    | FormSubmitted

  /** A page whose contact form, if any, has the e-mail and consent controls it reads. */
  predicate Ready(p: PageState) {
    p.hasForm ==> ContactForm.EmailId in p.inputs && ContactForm.ConsentId in p.inputs
  }

  /**
   Start-up at offset `scrollY`: the header state is applied, the campaign
   tags are captured, and the call-to-action state is applied.
   */
  function Load(p: PageState, scrollY: real): (r: PageState)
    ensures Scroll.Scrolled in r.header <==> scrollY > Scroll.HeaderThreshold
    ensures forall c :: c != Scroll.Scrolled ==> (c in r.header <==> c in p.header)
    ensures r.cta.Some? <==> p.cta.Some?
    ensures r.cta.Some? ==> (Scroll.Visible in r.cta.value <==> scrollY > Scroll.CtaThreshold)
    ensures r.cta.Some? ==> forall c :: c != Scroll.Visible ==> (c in r.cta.value <==> c in p.cta.value)
    ensures forall f :: f in Utm.UtmFields && f in p.query ==> f in r.storage && r.storage[f] == p.query[f]
    ensures forall k :: !(k in Utm.UtmFields && k in p.query) ==> (k in r.storage <==> k in p.storage)
    ensures forall k :: !(k in Utm.UtmFields && k in p.query) && k in p.storage ==> r.storage[k] == p.storage[k]
    ensures r.inputs.Keys == p.inputs.Keys
    ensures forall f :: f in Utm.UtmFields && f in p.inputs ==> r.inputs[f] == p.inputs[f].(value := Utm.Stored(r.storage, f))
    ensures forall k :: k !in Utm.UtmFields && k in p.inputs ==> r.inputs[k] == p.inputs[k]
    ensures Utm.Mirrors(r.storage, r.inputs, Utm.UtmFields)
    ensures r.(header := p.header, cta := p.cta, inputs := p.inputs, storage := p.storage) == p
  {
    var u := Utm.Populate(p.storage, p.inputs, p.query, Utm.UtmFields);
    Utm.PopulateIdempotent(p.storage, p.inputs, p.query, Utm.UtmFields);
    p.(header := Scroll.ApplyStickyHeader(p.header, scrollY),
       storage := u.storage,
       inputs := u.inputs,
       cta := Scroll.ToggleStickyCta(p.cta, scrollY))
  }

  /**
   One event, handled by its listener; an event without a listener changes
   nothing. Only the submit handler reads the e-mail and consent controls, so
   only a submission needs a `Ready` page.
   */
  function Step(p: PageState, e: Event): (r: PageState)
    requires e.FormSubmitted? ==> Ready(p)
    ensures Ready(p) ==> Ready(r)
    ensures r.query == p.query && r.hasForm == p.hasForm
    ensures e.Scrolled? ==> r.(header := p.header, cta := p.cta) == p
    ensures e.NavToggleClicked? || e.NavLinkClicked? ==> r.(nav := p.nav) == p
    ensures e.CardToggleClicked? ==> r.(cards := p.cards) == p && |r.cards| == |p.cards|
    ensures e.SectionsObserved? ==> r.(links := p.links) == p
    ensures ActiveSection.AtMostOneActive(p.links) ==> ActiveSection.AtMostOneActive(r.links)
    ensures e.FormSubmitted? ==> r.(inputs := p.inputs, message := p.message, storage := p.storage) == p
    ensures !e.FormSubmitted? ==> r.message == p.message && r.storage == p.storage && r.inputs == p.inputs
  {
    match e
    case Scrolled(y) =>
      p.(header := Scroll.ApplyStickyHeader(p.header, y), cta := Scroll.ToggleStickyCta(p.cta, y))
    case NavToggleClicked =>
      if p.nav.toggle.Some? then p.(nav := Nav.ToggleClick(p.nav)) else p
    case NavLinkClicked =>
      if |p.links| > 0 then p.(nav := Nav.LinkClick(p.nav)) else p
    case CardToggleClicked(i) =>
      if i < |p.cards| then p.(cards := CaseCard.ClickCard(p.cards, i)) else p
    case SectionsObserved(entries) =>
      ActiveSection.LastQualifyingWins(p.links, entries);
      p.(links := ActiveSection.ProcessEntries(p.links, entries))
    case FormSubmitted =>
      if !p.hasForm then p
      else
        var s := ContactForm.Submit(ContactForm.FormState(p.inputs, p.message, p.storage), p.query);
        p.(inputs := s.form.inputs, message := s.form.message, storage := s.form.storage)
  }

  /**
   Each event runs its own listener: a scroll applies both scroll marks for
   the new offset, a toggle click runs the menu toggle (flipping the
   `aria-expanded` reading and the list's `open` class), a
   nav-link click closes the menu, a toggle click on a card runs that card's
   handler and leaves the other cards alone, a batch from the viewport
   watcher runs the callback over its entries, and a submission runs the
   submit handler.
   */
  lemma StepRunsListener(p: PageState, e: Event)
    requires e.FormSubmitted? ==> Ready(p)
    ensures var r := Step(p, e);
            e.Scrolled? ==>
              && (Scroll.Scrolled in r.header <==> e.scrollY > Scroll.HeaderThreshold)
              && (forall c :: c != Scroll.Scrolled ==> (c in r.header <==> c in p.header))
              && (r.cta.Some? <==> p.cta.Some?)
              && (r.cta.Some? ==> (Scroll.Visible in r.cta.value <==> e.scrollY > Scroll.CtaThreshold))
              && (r.cta.Some? ==> forall c :: c != Scroll.Visible ==> (c in r.cta.value <==> c in p.cta.value))
    ensures var r := Step(p, e);
            e.NavToggleClicked? && p.nav.toggle.Some? ==>
              r.nav.toggle.Some? && (IsTrue(r.nav.toggle.value) <==> !IsTrue(p.nav.toggle.value))
    ensures var r := Step(p, e);
            e.NavToggleClicked? && p.nav.toggle.Some? ==> r.nav == Nav.ToggleClick(p.nav)
    ensures var r := Step(p, e);
            e.NavLinkClicked? && |p.links| > 0 && r.nav.list.Some? ==> Nav.Open !in r.nav.list.value
    ensures var r := Step(p, e);
            e.NavLinkClicked? && |p.links| > 0 ==> r.nav == Nav.LinkClick(p.nav)
    ensures var r := Step(p, e);
            e.CardToggleClicked? && e.card < |p.cards| && p.cards[e.card].toggle.Some? ==>
              r.cards[e.card] == CaseCard.ClickToggle(p.cards[e.card])
    ensures var r := Step(p, e);
            e.CardToggleClicked? ==> forall j :: 0 <= j < |p.cards| && j != e.card ==> r.cards[j] == p.cards[j]
    ensures var r := Step(p, e);
            e.SectionsObserved? ==> r.links == ActiveSection.ProcessEntries(p.links, e.entries)
    ensures var r := Step(p, e);
            e.FormSubmitted? && p.hasForm ==>
              var s := ContactForm.Submit(ContactForm.FormState(p.inputs, p.message, p.storage), p.query);
              r.inputs == s.form.inputs && r.message == s.form.message && r.storage == s.form.storage
  {
  }

  /**
   An event whose listener was never registered changes nothing: a click on
   a missing nav toggle, a nav-link click on a page without nav links, a
   click on a missing card or a card without its toggle control, and a
   submission on a page without the contact form.
   */
  lemma UnheardEventsChangeNothing(p: PageState, e: Event)
    ensures e.NavToggleClicked? && p.nav.toggle.None? ==> Step(p, e) == p
    ensures e.CardToggleClicked? && (e.card >= |p.cards| || p.cards[e.card].toggle.None?) ==> Step(p, e) == p
    ensures e.FormSubmitted? && !p.hasForm ==> Step(p, e) == p
    ensures e.NavLinkClicked? && p.links == [] ==> Step(p, e) == p
  {
  }

  /**
   The response message moves between hidden, error and success only on a
   submission, and after a submission on a page with a message element it
   shows exactly the style of the outcome.
   */
  lemma MessageFollowsSubmissions(p: PageState, e: Event)
    requires e.FormSubmitted? ==> Ready(p)
    ensures !e.FormSubmitted? ==> ContactForm.StateOf(Step(p, e).message) == ContactForm.StateOf(p.message)
    ensures e.FormSubmitted? && p.hasForm && p.message.Some? ==>
              var o := ContactForm.Decide(p.inputs[ContactForm.EmailId].value, p.inputs[ContactForm.ConsentId].checked);
              ContactForm.StateOf(Step(p, e).message) == ContactForm.StateFor(o)
  {
  }

  /**
   Storage keeps mirroring the tags: once the inputs mirror storage (as after
   start-up), every event leaves them mirroring it.
   */
  lemma StepKeepsUtmMirror(p: PageState, e: Event)
    requires e.FormSubmitted? ==> Ready(p)
    requires Utm.Mirrors(p.storage, p.inputs, Utm.UtmFields)
    ensures Utm.Mirrors(Step(p, e).storage, Step(p, e).inputs, Utm.UtmFields)
  {
    if e.FormSubmitted? && p.hasForm {
      ContactForm.SubmitOutcomes(ContactForm.FormState(p.inputs, p.message, p.storage), p.query);
    }
  }
}

=== FILE: scroll.dfy ===
/**
 Scroll-driven state: the header's `scrolled` class, the floating
 call-to-action's `visible` class, and the decision of an in-page link click
 to take over navigation and scroll smoothly.
 */
module Scroll {
  import opened Dom

  /** Past this vertical offset (in CSS pixels) the header is marked `scrolled`. */
  const HeaderThreshold: real := 10.0

  /** Past this vertical offset the floating call-to-action is marked `visible`. */
  const CtaThreshold: real := 400.0

  const Scrolled := "scrolled"
  const Visible := "visible"

  /** `applyStickyHeader`: the header's classes for the offset `scrollY`. */
  function ApplyStickyHeader(header: ClassList, scrollY: real): (r: ClassList)
    ensures Scrolled in r <==> scrollY > HeaderThreshold
    ensures forall c :: c != Scrolled ==> (c in r <==> c in header)
  {
    if scrollY > HeaderThreshold then AddClass(header, Scrolled) else RemoveClass(header, Scrolled)
  }

  /** `toggleStickyCta`: a missing call-to-action element is left missing. */
  function ToggleStickyCta(cta: Option<ClassList>, scrollY: real): (r: Option<ClassList>)
    ensures r.Some? <==> cta.Some?
    ensures r.Some? ==> (Visible in r.value <==> scrollY > CtaThreshold)
    ensures r.Some? ==> forall c :: c != Visible ==> (c in r.value <==> c in cta.value)
  {
    match cta
    case None => None
    case Some(cl) =>
      Some(if scrollY > CtaThreshold then AddClass(cl, Visible) else RemoveClass(cl, Visible))
  }

  /**
   The handlers keep no memory of earlier scroll events: the state after a
   scroll to `y2` is the same whatever offset `y1` was applied before.
   */
  lemma StickyStateForgetsHistory(header: ClassList, cta: Option<ClassList>, y1: real, y2: real)
    ensures ApplyStickyHeader(ApplyStickyHeader(header, y1), y2) == ApplyStickyHeader(header, y2)
    ensures ToggleStickyCta(ToggleStickyCta(cta, y1), y2) == ToggleStickyCta(cta, y2)
  {
    if cta.Some? {
      var cl := cta.value;
      var once := ToggleStickyCta(cta, y1).value;
      assert AddClass(once, Visible) == AddClass(cl, Visible);
      assert RemoveClass(once, Visible) == RemoveClass(cl, Visible);
    }
  }

  /** Both marks are monotone in the offset: scrolling further down never removes them. */
  lemma StickyStateMonotone(header: ClassList, cta: ClassList, y1: real, y2: real)
    requires y1 <= y2
    ensures Scrolled in ApplyStickyHeader(header, y1) ==> Scrolled in ApplyStickyHeader(header, y2)
    ensures Visible in ToggleStickyCta(Some(cta), y1).value ==> Visible in ToggleStickyCta(Some(cta), y2).value
  {
  }

  /** Whether `t` passes `t.startsWith('#')`. */
  predicate IsFragment(t: string) {
    |t| > 0 && t[0] == '#'
  }

  /**
   The click handler of an in-page link or `data-scroll` button: the target is
   `dataset.scroll || getAttribute('href')` (an empty `data-scroll` falls
   through to `href`), and the click is taken over (default prevented, smooth
   scroll started) exactly when that target starts with `#`. `None` means the
   browser's default navigation proceeds.
   */
  function ScrollTarget(dataScroll: Attr, href: Attr): (r: Option<string>)
    ensures r.Some? ==> IsFragment(r.value)
    ensures dataScroll.Some? && dataScroll.value != "" ==>
              (r.Some? <==> IsFragment(dataScroll.value)) && (r.Some? ==> r.value == dataScroll.value)
    ensures (dataScroll.None? || dataScroll.value == "") ==>
              (r.Some? <==> href.Some? && IsFragment(href.value)) && (r.Some? ==> r == href)
  {
    var target := if dataScroll.Some? && dataScroll.value != "" then dataScroll else href;
    match target
    case Some(t) => if IsFragment(t) then Some(t) else None
    case None => None
  }
}

=== FILE: utm.dfy ===
/**
 Campaign-tag (UTM) capture. The four recognised query parameters are copied
 into the browser's key-value storage, and then every hidden input named
 after one of them is filled from storage, so that tags seen on an earlier
 visit of the same origin still reach the form.

 The query string is taken as already decoded into a map from parameter name
 to its first value; storage is a map from key to string.
 */
module Utm {
  import opened Dom

  /** The recognised parameters, in the order the script visits them. */
  const UtmFields: seq<string> := ["utm_source", "utm_medium", "utm_campaign", "utm_content"]

  type Storage = map<string, string>
  type Query = map<string, string>

  /** `localStorage.getItem(f) || ''`: the stored text, or empty when never set. */
  function Stored(storage: Storage, f: string): string {
    if f in storage then storage[f] else ""
  }

  /** Storage after the first pass, and whether any recognised parameter was present. */
  datatype Persisted = Persisted(storage: Storage, any: bool)

  /**
   First pass: each field of `fields` present in the query is written to
   storage under its own name, overwriting any earlier value. Nothing else in
   storage changes, and parameters outside `fields` are never written.
   */
  function Persist(storage: Storage, query: Query, fields: seq<string>): (r: Persisted)
    ensures forall k :: k in fields && k in query ==> k in r.storage && r.storage[k] == query[k]
    ensures forall k :: !(k in fields && k in query) ==> (k in r.storage <==> k in storage)
    ensures forall k :: !(k in fields && k in query) && k in storage ==> r.storage[k] == storage[k]
    ensures r.any <==> exists f :: f in fields && f in query
    decreases |fields|
  {
    if fields == [] then Persisted(storage, false)
    else
      var f := fields[0];
      var written := if f in query then storage[f := query[f]] else storage;
      var rest := Persist(written, query, fields[1..]);
      assert forall k :: k in fields <==> k == f || k in fields[1..];
      Persisted(rest.storage, f in query || rest.any)
  }

  /**
   Second pass: every input whose id is in `fields` gets the stored value (or
   the empty string) as its value; all other inputs, and every other property
   of those inputs, are untouched. Missing inputs are skipped.
   */
  function Hydrate(storage: Storage, inputs: map<string, Input>, fields: seq<string>): (r: map<string, Input>)
    ensures r.Keys == inputs.Keys
    ensures forall k :: k in fields && k in inputs ==> r[k] == inputs[k].(value := Stored(storage, k))
    ensures forall k :: k !in fields && k in inputs ==> r[k] == inputs[k]
    decreases |fields|
  {
    if fields == [] then inputs
    else
      var f := fields[0];
      var written := if f in inputs then inputs[f := inputs[f].(value := Stored(storage, f))] else inputs;
      assert forall k :: k in fields <==> k == f || k in fields[1..];
      Hydrate(storage, written, fields[1..])
  }

  /** What the second pass reads back for a field after the first pass. */
  lemma StoredAfterPersist(storage: Storage, query: Query, fields: seq<string>)
    ensures forall f :: f in fields ==>
              Stored(Persist(storage, query, fields).storage, f) == if f in query then query[f] else Stored(storage, f)
  {
  }

  /** What `populateUtmFields` leaves behind and returns. */
  datatype Populated = Populated(storage: Storage, inputs: map<string, Input>, persisted: bool)

  /** Persist `fields` from the query, then hydrate the inputs named by `fields` from storage. */
  function Populate(storage: Storage, inputs: map<string, Input>, query: Query, fields: seq<string>): (r: Populated)
    ensures forall f :: f in fields && f in query ==> f in r.storage && r.storage[f] == query[f]
    ensures forall k :: !(k in fields && k in query) ==> (k in r.storage <==> k in storage)
    ensures forall k :: !(k in fields && k in query) && k in storage ==> r.storage[k] == storage[k]
    ensures r.inputs.Keys == inputs.Keys
    ensures forall f :: f in fields && f in inputs ==>
              r.inputs[f] == inputs[f].(value := if f in query then query[f] else Stored(storage, f))
    ensures forall k :: k !in fields && k in inputs ==> r.inputs[k] == inputs[k]
    ensures r.persisted <==> exists f :: f in fields && f in query
  {
    var p := Persist(storage, query, fields);
    StoredAfterPersist(storage, query, fields);
    Populated(p.storage, Hydrate(p.storage, inputs, fields), p.any)
  }

  /** `populateUtmFields`: the capture over the four recognised parameters. */
  function PopulateUtmFields(storage: Storage, inputs: map<string, Input>, query: Query): Populated {
    Populate(storage, inputs, query, UtmFields)
  }

  /** Every existing input named by `fields` mirrors storage. */
  predicate Mirrors(storage: Storage, inputs: map<string, Input>, fields: seq<string>) {
    forall f :: f in fields && f in inputs ==> inputs[f].value == Stored(storage, f)
  }

  /**
   After a run the inputs mirror storage, and running the capture again with
   the same query (as the form does after a successful submission) changes
   neither storage nor the inputs.
   */
  lemma PopulateIdempotent(storage: Storage, inputs: map<string, Input>, query: Query, fields: seq<string>)
    ensures var once := Populate(storage, inputs, query, fields);
            Mirrors(once.storage, once.inputs, fields)
            && Populate(once.storage, once.inputs, query, fields) == once
  {
    var once := Populate(storage, inputs, query, fields);
    var twice := Populate(once.storage, once.inputs, query, fields);
    assert twice.storage == once.storage;
    forall k | k in once.inputs
      ensures twice.inputs[k] == once.inputs[k]
    {
      if k in fields {
        assert Stored(once.storage, k) == Stored(storage, k) || k in query;
      }
    }
    assert twice.inputs == once.inputs;
  }

  /**
   The hydrated inputs do not depend on what the named inputs held before:
   two input maps that differ only in those values hydrate to the same map.
   */
  lemma HydrateForgetsOldValues(storage: Storage, a: map<string, Input>, b: map<string, Input>, query: Query, fields: seq<string>)
    requires a.Keys == b.Keys
    requires forall k :: k in a && k !in fields ==> a[k] == b[k]
    requires forall f :: f in fields && f in a ==> a[f].(value := "") == b[f].(value := "")
    ensures Populate(storage, a, query, fields).inputs == Populate(storage, b, query, fields).inputs
  {
    var ra := Populate(storage, a, query, fields).inputs;
    var rb := Populate(storage, b, query, fields).inputs;
    forall k | k in ra
      ensures ra[k] == rb[k]
    {
      if k in fields {
        assert a[k].(value := "") == b[k].(value := "");
      }
    }
  }

  /** The four recognised names, and that they are distinct from each other. */
  lemma UtmFieldNames()
    ensures "utm_source" in UtmFields && "utm_medium" in UtmFields
    ensures "utm_campaign" in UtmFields && "utm_content" in UtmFields
    ensures "utm_medium" != "utm_source" && "utm_medium" != "utm_campaign"
    ensures "utm_content" != "utm_source" && "utm_content" != "utm_campaign"
  {
    assert UtmFields[0] == "utm_source" && UtmFields[1] == "utm_medium";
    assert UtmFields[2] == "utm_campaign" && UtmFields[3] == "utm_content";
    assert "utm_medium"[4] != "utm_source"[4] && "utm_medium"[4] != "utm_campaign"[4];
    assert "utm_content"[4] != "utm_source"[4] && "utm_content"[5] != "utm_campaign"[5];
  }

  /**
   Landing on `?utm_source=ads&utm_campaign=spring`: the two tags are stored,
   and the medium and content inputs show whatever was stored before.
   */
  lemma LandingExample(storage: Storage, inputs: map<string, Input>)
    requires "utm_source" in inputs && "utm_medium" in inputs
    requires "utm_campaign" in inputs && "utm_content" in inputs
    ensures var r := PopulateUtmFields(storage, inputs, map["utm_source" := "ads", "utm_campaign" := "spring"]);
            && Stored(r.storage, "utm_source") == "ads"
            && Stored(r.storage, "utm_campaign") == "spring"
            && r.inputs["utm_source"].value == "ads"
            && r.inputs["utm_campaign"].value == "spring"
            && r.inputs["utm_medium"].value == Stored(storage, "utm_medium")
            && r.inputs["utm_content"].value == Stored(storage, "utm_content")
            && r.persisted
  {
    var q := map["utm_source" := "ads", "utm_campaign" := "spring"];
    UtmFieldNames();
    assert "utm_medium" !in q && "utm_content" !in q;
    assert q["utm_source"] == "ads" && q["utm_campaign"] == "spring";
    var r := Populate(storage, inputs, q, UtmFields);
    assert r.inputs["utm_medium"] == inputs["utm_medium"].(value := Stored(storage, "utm_medium"));
    assert r.inputs["utm_content"] == inputs["utm_content"].(value := Stored(storage, "utm_content"));
  }
}
